=== FILE: README.md ===
# Naver smart-store scraper — a verified model

This project models the core of a command-line scraper for Naver smart stores.

The user types a store address. The tool checks it and takes the store name out of it. It looks up the store's channel, then walks the store's product listing page by page. Each raw product becomes a flat record, tagged `BEST` and/or `NEW` when its id is in the matching list. Records are merged into a JSON store keyed by product id. The run stops early at the first page that carries a newly listed product. The store is then exported to a CSV file named after the channel.

Modules:

- `Wrappers`: `Option` and `Result`.
- `Text`: JavaScript string behaviour the code relies on:
  - `toString` of integral numbers;
  - `indexOf`, `includes` and `replace` with a literal pattern;
  - `Array.prototype.join`.
- `Products`: the vendor's listing records, the normalized record `ITransformProduct`, and the JSON object the store holds for it.
- `Scraper`: the `Naver` scraper.
  - Pure parts are functions over an explicit `Context`: the transformer, the tagger, the request builder, the store merge, and the paging walk as a function of the responses.
  - The class `Scraper.Naver` holds the fields the source mutates. Its methods `UpdateChannelInfo`, `SaveTransformDataOnFile`, `GetProducts` and `Start` update them in place, and each is proved against those functions.
- `Cli`: the pure pieces of the command-line entry point: address validation, store-name extraction, file-name sanitizing and the `tags` export transform.

The network is passed in as oracles:

- `lookup` answers the store-lookup request by URL.
- `fetch` answers a listing request, given its URL and Referer header.

The JSON file store is an in-memory `map` from product id to record. Opening it reads a `files` map keyed by the store's path. The pages requested are returned as a ghost trace.

## Model

| member | source | states |
|---|---|---|
| Text.IntToString | src/scraper/naver/naver.ts:186-187 | definition of `toString()` on an integral number: a minus sign for negatives, then the decimal digits without leading zeros (their properties are in `NatToString` and `IntToStringInjective`) |
| Text.IntToStringInjective | src/scraper/naver/naver.ts:186-187 | distinct numeric ids render to distinct decimal strings, so record keys keep the identity of products |
| Text.IndexOf | src/index.ts:36 | `replace` with a string pattern acts on the first occurrence: the index found is an occurrence and none occurs before it; absent means no occurrence anywhere |
| Text.ReplaceFirst | src/index.ts:36 | definition of `replace` with a literal pattern: the text before the first occurrence, the replacement, then the text after it; the input itself when the pattern does not occur |
| Text.Join | src/index.ts:139 | definition of `Array.prototype.join`: empty for no parts, the part itself for one, the separator only between consecutive parts |
| Products.ToRecord | src/scraper/naver/index.ts:15-34 | the object written for a product has exactly the nine fields of `ITransformProduct`; `id`, `productNo` and each tag are strings |
| Products.RecordRoundTrip | src/scraper/naver/index.ts:15-34 | the object written for a product reads back as that product |
| Scraper.GetTags | src/scraper/naver/naver.ts:238-252 | `BEST` is present iff the id is a best seller; `NEW` iff it is newly listed; no other tag; at most two, no duplicates; `BEST` before `NEW` |
| Scraper.OrElse | src/scraper/naver/naver.ts:191-197 | definition of JavaScript's logical-or default on an optional number: the value when present and non-zero, the fallback when absent or 0 |
| Scraper.TransformOne | src/scraper/naver/naver.ts:185-199 | succeeds iff both numeric ids are present; then ids are their decimal strings, url is `defaultUrl/name/products/id`, both discount prices fall back to the sale price when absent or 0, the review count falls back to 0, and tags are `getTags(id)`; an absent `id` (or, with an id, an absent `productNo`) throws; the model labels that TypeError with the field whose `toString` failed |
| Scraper.TransformData | src/scraper/naver/naver.ts:180-205 | succeeds iff every record has both ids; then one output per input, in order, each normalizing its input; a failure is the error of the first record without both ids |
| Scraper.HasNewIff | src/scraper/naver/naver.ts:134 | a transformed page carries `NEW` iff one of its raw ids is in the newly-listed list |
| Scraper.Naver.MarketInfoUrl | src/scraper/naver/naver.ts:105 | definition of the store-lookup request: `defaultUrl/i/v1/smart-stores?url=<name>` |
| Scraper.GetPageUrl | src/scraper/naver/naver.ts:260-278 | definition of the two request strings: `defaultUrl/i/v2/channels/<channelUid>/categories/ALL/products?categorySearchType=STDCATG&sortType=TOTALSALE&page=<n>&pageSize=<s>` and the Referer `defaultUrl/<name>/category/ALL?st=TOTALSALE&dt=BIG_IMAGE&page=<n>&size=<s>` |
| Scraper.GetPageUrlDistinct | src/scraper/naver/naver.ts:260-278 | the API URL and the Referer are each injective in the page number, so no page is requested under another page's URL |
| Scraper.CeilDiv | src/scraper/naver/naver.ts:142 | `Math.ceil(n / d)`: the least `r` with `n <= r * d`, for negative counts too |
| Scraper.Merge | src/scraper/naver/naver.ts:222 | `Object.assign({}, old, new)`: keys of both; new values win; old-only fields survive |
| Scraper.SaveOne | src/scraper/naver/naver.ts:214-226 | one product is merged over the record at its id (empty when absent); every other key is unchanged |
| Scraper.StoredRecordReadsBack | src/scraper/naver/naver.ts:216-225 | the record the store holds at a product's id after saving it, merged over whatever an older record left there, reads back as that product |
| Scraper.SaveAll | src/scraper/naver/naver.ts:211-231 | definition of saving a batch: each product saved in order; what it leaves at each key is `SaveAllAt` |
| Scraper.SaveAllAppend | src/scraper/naver/naver.ts:214-230 | saving two batches in turn equals saving their concatenation |
| Scraper.MergeOverwrites | src/scraper/naver/naver.ts:222 | every record has all nine fields, so a later write of the same id hides the earlier write completely |
| Scraper.SaveAllAt | src/scraper/naver/naver.ts:211-231 | after a batch, a key is present iff it was already present or the batch has that id; untouched keys keep their record; a touched key holds the old record with the last product of that id merged over it |
| Scraper.SaveAllIdempotent | src/scraper/naver/naver.ts:211-231 | saving the same batch twice leaves the store as saving it once |
| Scraper.TotalPage | src/scraper/naver/naver.ts:142 | definition of the loop bound: `ceil(totalCount / 40)` of page 1's response, and 1 when page 1 fails (the run then ends before the bound is read) |
| Scraper.GetProductPage | src/scraper/naver/naver.ts:286-298 | definition of a listing request: the oracle's answer for the URL and Referer pair, a page body or the reason it failed |
| Scraper.HarvestFrom | src/scraper/naver/naver.ts:146-172 | definition of the `while` loop over the responses: past `totalPage` nothing is requested; a failing page ends it with that error; a page carrying `NEW` ends it successfully; otherwise the next page follows |
| Scraper.Harvest | src/scraper/naver/naver.ts:116-173 | definition of the whole walk: page 1, ending there on failure or `NEW`, otherwise the loop from page 2; its shape is `HarvestShape` |
| Scraper.QuietIff | src/scraper/naver/naver.ts:146-171 | the loop goes on past a page iff its request succeeds, every record has both ids, and none of its ids is newly listed |
| Scraper.HarvestIsTailFromOne | src/scraper/naver/naver.ts:117-146 | page 1 is requested whatever the total; the run is the loop started at page 1 and bounded by max(1, totalPage) |
| Scraper.HarvestFromTrace | src/scraper/naver/naver.ts:146-172 | the loop requests consecutive pages from where it starts and never goes beyond `totalPage`; it requests at least one page when it starts at or below `totalPage`, and none (succeeding) when it starts above it |
| Scraper.HarvestFromQuiet | src/scraper/naver/naver.ts:146-172 | every page the loop requested before its last one loaded without a `NEW` tag |
| Scraper.HarvestFromEnd | src/scraper/naver/naver.ts:146-172 | the loop's last page failed, carried `NEW`, or was `totalPage`; the loop fails iff that page failed |
| Scraper.HarvestShape | src/scraper/naver/naver.ts:116-173 | pages requested are 1..k with no gap or repeat; k ≤ max(1, ceil(totalCount/40)); all before k loaded quietly; page k failed, carried `NEW` or was the last page; the run fails iff page k failed |
| Scraper.NewOnFirstPageStops | src/scraper/naver/naver.ts:134-139 | a `NEW` tag on page 1 ends the run after exactly one request, whatever the total |
| Scraper.AllQuietVisitsEveryPage | src/scraper/naver/naver.ts:142-172 | when no page fails or carries `NEW`, exactly pages 1..max(1, totalPage) are requested and the run succeeds |
| Scraper.EightyOneProductsTakeThreePages | src/scraper/naver/naver.ts:142-146 | with 81 products and no `NEW` tag, pages 1, 2, 3 are requested and no more |
| Scraper.SavedFromAppend | src/scraper/naver/naver.ts:130-158 | the records saved over two runs of pages are the two runs' records in order |
| Scraper.Naver.constructor | src/scraper/naver/naver.ts:30-53 | keeps the base URL and store name; channel fields empty, id lists empty, no store opened |
| Scraper.Naver.GetMarketInfo | src/scraper/naver/naver.ts:104-111 | the lookup's answer when it succeeds; any failure becomes the error naming the store |
| Scraper.Naver.UpdateChannelInfo | src/scraper/naver/naver.ts:79-97 | an absent channel throws and changes nothing; otherwise the channel handle and name are taken and the store `db/<channelName>` is opened; then an absent `specialProducts` throws and leaves the id lists, while a present one sets them with absent lists read as empty |
| Scraper.Naver.SaveTransformDataOnFile | src/scraper/naver/naver.ts:211-231 | the store becomes the old store with the batch saved in order |
| Scraper.Naver.GetProducts | src/scraper/naver/naver.ts:116-173 | the pages requested and the outcome are those of the paging walk over the responses, bounded by ceil(totalCount/40) of page 1; the store gains the records of exactly the pages that loaded, in request order |
| Scraper.Naver.GetRemainingPages | src/scraper/naver/naver.ts:146-172 | the `while` loop requests exactly the walk from page 2 and saves the records of the pages that loaded |
| Scraper.Naver.Start | src/scraper/naver/naver.ts:59-73 | a failed lookup, or an absent `channel`, gives `''` with nothing changed; an absent `specialProducts` gives `''` after the channel and store are set, leaving both id lists as they were; otherwise the id lists are set, the listing is walked and saved, and the channel name is returned iff the walk succeeded (`''` otherwise) |
| Cli.NameHasNoSeparator | src/index.ts:37 | a name made of `[a-zA-Z0-9_-]` contains none of `..`, `/`, `\` |
| Cli.StoreNameOfPrefixed | src/index.ts:78 | on the literal prefix, the extracted name is everything after it |
| Cli.MatchesStoreUrlPattern | src/index.ts:20 | definition of the address pattern: the whole input (`^`, `$`) is the 29 characters of `https://smartstore.naver.com/`, whose two unescaped dots each match one UTF-16 code unit other than a line terminator (the pattern has no `u` flag), followed by one or more of `[a-zA-Z0-9_-]` |
| Cli.StoreName | src/index.ts:78 | definition of store-name extraction: the first occurrence of `https://smartstore.naver.com/` removed (the same expression as src/index.ts:36) |
| Cli.ValidateUrl | src/index.ts:29-42 | definition of `validateUrl`: the pattern of line 20 matches, then the extracted name contains none of `..`, `/`, `\` |
| Cli.ValidateUrlIff | src/index.ts:20-42 | `validateUrl(u)` iff `u` is `https://smartstore.naver.com/` followed by a non-empty name of `[a-zA-Z0-9_-]`; other hosts let in by the pattern's unescaped dots are refused |
| Cli.StoreNameIsSafe | src/index.ts:78 | after validation the extracted name is the part after the prefix, non-empty, of `[a-zA-Z0-9_-]`, with no `..`, `/` or `\` |
| Cli.StoreUrlRoundTrip | src/index.ts:29-42 | prefixing any non-empty name of `[a-zA-Z0-9_-]` gives an accepted address, and the same name is extracted from it |
| Cli.SanitizeChar | src/index.ts:51 | a safe character is kept; any other becomes underscores, one per UTF-16 code unit (two outside the Basic Multilingual Plane); the result is safe |
| Cli.Sanitize | src/index.ts:51 | every output character is in `[a-zA-Z0-9가-힣_-]`; the output's length equals the input's UTF-16 length |
| Cli.SanitizeAppend | src/index.ts:51 | the replacement distributes over concatenation |
| Cli.SanitizeFixedIff | src/index.ts:51 | a string is left unchanged iff all its characters are safe |
| Cli.SanitizeIdempotent | src/index.ts:51 | sanitizing twice is sanitizing once |
| Cli.SanitizeBmp | src/index.ts:51 | for text in the Basic Multilingual Plane: same length; safe characters kept in place; every other character becomes `_` |
| Cli.CsvFileName | src/index.ts:104 | definition of the CSV file name: the sanitizing replacement applied to the store's readable name followed by `.csv` |
| Cli.CsvFileNameShape | src/index.ts:104 | the CSV file name is the sanitized store name followed by `_csv`, and entirely safe |
| Cli.ElementText | src/index.ts:139 | definition of how `join` renders one element: null as empty, booleans and integers as their text, strings as themselves, an inner array joined with commas |
| Cli.ExportRow | src/index.ts:137-140 | every field is kept except `tags`, which is added if absent; `tags` becomes a string, empty when the field is not an array (its value for an array of strings is `ExportRowOfStrings`) |
| Cli.ExportRowOfStrings | src/index.ts:139 | a `tags` array of strings becomes those strings joined with `", "` |
| Cli.ExportRowOfRecord | src/index.ts:137-140 | for the record the store holds for a product (its fields merged over any older record), the export keeps every field and `tags` becomes the product's tags joined with `", "` |
| Cli.ExportedTagCell | src/index.ts:139 | the exported tag cell of a scraped product is `BEST, NEW`, `BEST`, `NEW` or empty, by its membership in the two id lists |

## Left out

- Network: `getMarketInfo` and `getProductPage` call `axios`; here they are the `lookup` and `fetch` oracles. Status codes and payload decoding are not modelled. A request either answers a body or fails with a reason.
- Missing response fields beyond those modelled: a page without `simpleProducts` or `totalCount`, a product without `name` or `salePrice`, and a channel without `channelUid` or `channelName` are not represented. The source reads such a field as `undefined` without throwing; here `ProductPage`, `Product` and `Channel` always carry them.
- Sleep and logging: the 500 ms pause between pages and every `console` call are timing and output only.
- File persistence: the JSON store is a map. Opening it reads a `files` map. Writing the file back to disk is not modelled, and `Start` does not write `files`.
- CLI and export I/O: prompting, `fs` reads and writes, `JSON.parse`, the json2csv parser, the byte-order mark and the process wiring are left out.
- `path.join(process.cwd(), ...)` in `sanitizeFilePath` is left out. Only the character replacement is modelled.
- Numbers: prices, counts and ids are integers. Floating-point values and their `toString`, such as `1.5` or `1e21`, are not modelled.
- Exported values: `Cli.ElementText` renders integral numbers only.
- Nested JSON objects inside stored records are not representable in `Products.Value`.
- Strings are sequences of Unicode scalar values. A lone UTF-16 surrogate cannot be represented. The sanitizing replacement works on code units, so a character outside the Basic Multilingual Plane becomes two underscores.
- Behaviours the code does not have, and the model does not add:
  - There is no retry or back-off.
  - A record without an id is not skipped. `id.toString()` throws and the whole run fails.
  - A failed later page ends the run with an error. It is not tolerated.
  - An empty page does not stop the walk.
  - No update timestamp is stored.
- `Scraper.Naver.GetRemainingPages` is the source's `while` loop split out of `GetProducts` as a method of its own. Its behaviour is the same.
- `Scraper.Naver.GetProducts`: the list of requested pages is a ghost out-parameter. It records what the source only logs.
- `Scraper.Naver.Start`: the error object it logs is not returned. Every failure gives `''`, as in the source.

=== FILE: cli.dfy ===
/**
 * The command-line layer: checking the store address the user types, taking
 * the store name out of it, turning the store's readable name into a safe
 * CSV file name, and the per-row transform applied before the CSV export.
 */
module Cli {
  import opened Text
  import opened Products
  import Scraper

  const DefaultUrl: string := "https://smartstore.naver.com"

  /** The default address followed by a slash: what is stripped to get the store name. */
  const StorePrefix: string := DefaultUrl + "/"

  const PrefixLength: nat := 29

  lemma PrefixLengthIs()
    ensures |StorePrefix| == PrefixLength
  {
  }

  /** `[a-zA-Z0-9_-]` */
  predicate StoreNameChar(c: char)
  {
    ('a' <= c <= 'z') || ('A' <= c <= 'Z') || ('0' <= c <= '9') || c == '_' || c == '-'
  }

  /** The characters a regular-expression `.` refuses. */
  predicate LineTerminator(c: char)
  {
    c == '\n' || c == '\r' || c == '\U{2028}' || c == '\U{2029}'
  }

  /**
   * What a `.` of a pattern without the `u` flag matches: one UTF-16 code
   * unit that is not a line terminator, so never a character outside the
   * Basic Multilingual Plane (it takes two code units).
   */
  predicate AnyCodeUnit(c: char)
  {
    !LineTerminator(c) && c as int <= 0xFFFF
  }

  /**
   * Position `i` of the store-address pattern accepts `c`. The default
   * address is spliced into the pattern unescaped, so its two dots (at 18
   * and 24) stand for any code unit.
   */
  predicate PatternCharAt(i: nat, c: char)
    requires i < PrefixLength
  {
    if i == 18 || i == 24 then AnyCodeUnit(c) else c == StorePrefix[i]
  }

  /** `^https://smartstore.naver.com/[a-zA-Z0-9_-]+$` matches `u`. */
  predicate MatchesStoreUrlPattern(u: string)
  {
    && |u| > PrefixLength
    && (forall i | 0 <= i < PrefixLength :: PatternCharAt(i, u[i]))
    && (forall i | PrefixLength <= i < |u| :: StoreNameChar(u[i]))
  }

  /** `url.replace(DEFAULT_URL + '/', '')`: the first occurrence of the prefix removed. */
  function StoreName(u: string): string
  {
    ReplaceFirst(u, StorePrefix, "")
  }

  /** `validateUrl`: the pattern matches and the extracted name has no `..`, `/` or `\`. */
  function ValidateUrl(u: string): bool
  {
    if !MatchesStoreUrlPattern(u) then false
    else
      var name := StoreName(u);
      !(Contains(name, "..") || Contains(name, "/") || Contains(name, "\\"))
  }

  /** The reference reading of a valid address: the literal prefix and then a non-empty store name. */
  predicate IsStoreUrl(u: string)
  {
    && |u| > PrefixLength
    && u[..PrefixLength] == StorePrefix
    && (forall i | PrefixLength <= i < |u| :: StoreNameChar(u[i]))
  }

  /** A store name is never followed by the prefix, because the prefix ends in a slash. */
  lemma NoLaterPrefix(u: string, j: int)
    requires |u| > PrefixLength
    requires forall i | PrefixLength <= i < |u| :: StoreNameChar(u[i])
    requires j >= 1
    ensures !OccursAt(u, StorePrefix, j)
  {
    PrefixLengthIs();
    if j + PrefixLength <= |u| {
      assert u[j..j + PrefixLength][28] == u[j + 28] != '/';
      assert StorePrefix[28] == '/';
    }
  }

  /** A string of store-name characters holds none of `..`, `/`, `\`. */
  lemma NameHasNoSeparator(name: string)
    requires forall i | 0 <= i < |name| :: StoreNameChar(name[i])
    ensures !Contains(name, "..") && !Contains(name, "/") && !Contains(name, "\\")
  {
    ContainsIff(name, "..");
    ContainsIff(name, "/");
    ContainsIff(name, "\\");
    forall j | 0 <= j < |name|
      ensures !OccursAt(name, "..", j) && !OccursAt(name, "/", j) && !OccursAt(name, "\\", j)
    {
      assert name[j..j + 1][0] == name[j] && StoreNameChar(name[j]);
    }
  }

  /** On a valid-looking address the store name is everything after the prefix. */
  lemma StoreNameOfPrefixed(u: string)
    requires IsStoreUrl(u)
    ensures StoreName(u) == u[PrefixLength..]
  {
    PrefixLengthIs();
    assert OccursAt(u, StorePrefix, 0);
  }

  /**
   * `validateUrl` accepts exactly the prefix followed by a non-empty name of
   * `[a-zA-Z0-9_-]`: an address whose dots are other characters matches the
   * pattern but keeps its slashes when the prefix is not found, and is refused.
   */
  lemma ValidateUrlIff(u: string)
    ensures ValidateUrl(u) <==> IsStoreUrl(u)
  {
    PrefixLengthIs();
    if IsStoreUrl(u) {
      assert MatchesStoreUrlPattern(u) by {
        forall i | 0 <= i < PrefixLength
          ensures PatternCharAt(i, u[i])
        {
          assert u[i] == u[..PrefixLength][i];
        }
      }
      StoreNameOfPrefixed(u);
      NameHasNoSeparator(u[PrefixLength..]);
    } else if MatchesStoreUrlPattern(u) {
      assert !OccursAt(u, StorePrefix, 0);
      forall j ensures !OccursAt(u, StorePrefix, j) {
        if j >= 1 { NoLaterPrefix(u, j); }
      }
      assert StoreName(u) == u;
      assert PatternCharAt(6, u[6]);
      assert OccursAt(u, "/", 6);
      ContainsIff(u, "/");
    }
  }

  /** The name taken out of an accepted address is non-empty, of `[a-zA-Z0-9_-]`, and holds no path separator. */
  lemma StoreNameIsSafe(u: string)
    requires ValidateUrl(u)
    ensures StoreName(u) == u[PrefixLength..] && |StoreName(u)| >= 1
    ensures forall i | 0 <= i < |StoreName(u)| :: StoreNameChar(StoreName(u)[i])
    ensures !Contains(StoreName(u), "..") && !Contains(StoreName(u), "/") && !Contains(StoreName(u), "\\")
  {
    ValidateUrlIff(u);
    StoreNameOfPrefixed(u);
  }

  /** Prefixing a store name gives an accepted address the same name comes back out of. */
  lemma StoreUrlRoundTrip(name: string)
    requires |name| >= 1 && forall i | 0 <= i < |name| :: StoreNameChar(name[i])
    ensures ValidateUrl(StorePrefix + name) && StoreName(StorePrefix + name) == name
  {
    var u := StorePrefix + name;
    PrefixLengthIs();
    assert u[..PrefixLength] == StorePrefix;
    assert u[PrefixLength..] == name;
    assert IsStoreUrl(u) by {
      forall i | PrefixLength <= i < |u| ensures StoreNameChar(u[i]) {
        assert u[i] == name[i - PrefixLength];
      }
    }
    ValidateUrlIff(u);
    StoreNameOfPrefixed(u);
  }

  /** `[a-zA-Z0-9가-힣_-]`: the characters a file name keeps. */
  predicate SafeChar(c: char)
  {
    StoreNameChar(c) || ('\U{AC00}' <= c <= '\U{D7A3}')
  }

  predicate AllSafe(s: string)
  {
    forall i | 0 <= i < |s| :: SafeChar(s[i])
  }

  /** UTF-16 code units a character takes. */
  function Units(c: char): nat
  {
    if c as int > 0xFFFF then 2 else 1
  }

  /** The length of `s` as a JavaScript string (in UTF-16 code units). */
  function Utf16Length(s: string): nat
    decreases |s|
  {
    if s == [] then 0 else Units(s[0]) + Utf16Length(s[1..])
  }

  /**
   * What the global replacement makes of one character. The pattern has no
   * `u` flag, so it sees code units: a character outside the Basic
   * Multilingual Plane is two unsafe units and becomes two underscores.
   */
  function SanitizeChar(c: char): (r: string)
    ensures |r| == Units(c) && AllSafe(r)
    ensures SafeChar(c) ==> r == [c]
    ensures !SafeChar(c) ==> forall i | 0 <= i < |r| :: r[i] == '_'
  {
    if SafeChar(c) then [c] else if c as int > 0xFFFF then "__" else "_"
  }

  /** `s.replace(/[^a-zA-Z0-9가-힣_-]/g, '_')`. */
  function Sanitize(s: string): (r: string)
    ensures AllSafe(r)
    ensures |r| == Utf16Length(s)
    decreases |s|
  {
    if s == [] then [] else SanitizeChar(s[0]) + Sanitize(s[1..])
  }

  /** The replacement works character by character, so it distributes over concatenation. */
  lemma {:induction false} SanitizeAppend(a: string, b: string)
    ensures Sanitize(a + b) == Sanitize(a) + Sanitize(b)
    decreases |a|
  {
    if a == [] {
      assert a + b == b;
    } else {
      assert (a + b)[0] == a[0];
      assert (a + b)[1..] == a[1..] + b;
      SanitizeAppend(a[1..], b);
    }
  }

  /** A string is left as it is exactly when it holds only safe characters. */
  lemma {:induction false} SanitizeFixedIff(s: string)
    ensures Sanitize(s) == s <==> AllSafe(s)
    decreases |s|
  {
    if s != [] && AllSafe(s) {
      SanitizeFixedIff(s[1..]);
      assert s == [s[0]] + s[1..];
    }
  }

  lemma SanitizeIdempotent(s: string)
    ensures Sanitize(Sanitize(s)) == Sanitize(s)
  {
    SanitizeFixedIff(Sanitize(s));
  }

  /** On text inside the Basic Multilingual Plane: same length, safe characters kept, every other one an underscore. */
  lemma {:induction false} SanitizeBmp(s: string)
    requires forall i | 0 <= i < |s| :: s[i] as int <= 0xFFFF
    ensures |Sanitize(s)| == |s|
    ensures forall i | 0 <= i < |s| :: Sanitize(s)[i] == if SafeChar(s[i]) then s[i] else '_'
    decreases |s|
  {
    if s != [] {
      SanitizeBmp(s[1..]);
      var r := Sanitize(s);
      assert r == SanitizeChar(s[0]) + Sanitize(s[1..]);
      forall i | 0 <= i < |s|
        ensures r[i] == if SafeChar(s[i]) then s[i] else '_'
      {
        if i > 0 {
          assert r[i] == Sanitize(s[1..])[i - 1];
          assert s[i] == s[1..][i - 1];
        }
      }
    }
  }

  /** `sanitizeFilePath(`${name}.csv`)` without the directory join. */
  function CsvFileName(marketReadableName: string): string
  {
    Sanitize(marketReadableName + ".csv")
  }

  /** The extension's dot is unsafe, so the file name ends in `_csv` after the sanitized store name. */
  lemma CsvFileNameShape(marketReadableName: string)
    ensures CsvFileName(marketReadableName) == Sanitize(marketReadableName) + "_csv"
    ensures AllSafe(CsvFileName(marketReadableName))
  {
    SanitizeAppend(marketReadableName, ".csv");
    assert ".csv"[1..] == "csv";
    SanitizeFixedIff("csv");
  }

  /** How `Array.prototype.join` renders one element: null as empty, an inner array joined with commas. */
  function ElementText(v: Value): string
    decreases v
  {
    match v
    case Null => ""
    case Bool(b) => if b then "true" else "false"
    case Num(n) => IntToString(n)
    case Str(s) => s
    case Arr(elems) => Join(seq(|elems|, i requires 0 <= i < |elems| => ElementText(elems[i])), ",")
  }

  /** The texts of all elements of an array, in order. */
  function ElementTexts(elems: seq<Value>): seq<string>
  {
    seq(|elems|, i requires 0 <= i < |elems| => ElementText(elems[i]))
  }

  /** The CSV transform: `tags` becomes its elements joined with `, `, or empty when it is not an array. */
  function ExportRow(item: Record): (r: Record)
    ensures r.Keys == item.Keys + {"tags"}
    ensures forall k | k in item && k != "tags" :: r[k] == item[k]
    ensures r["tags"].Str?
    ensures !("tags" in item && item["tags"].Arr?) ==> r["tags"] == Str("")
  {
    var cell := if "tags" in item && item["tags"].Arr? then Join(ElementTexts(item["tags"].elems), ", ") else "";
    item["tags" := Str(cell)]
  }

  /** A `tags` array of strings is exported as those strings joined with `, `. */
  lemma ExportRowOfStrings(item: Record, tags: seq<string>)
    requires "tags" in item && item["tags"] == Arr(seq(|tags|, i requires 0 <= i < |tags| => Str(tags[i])))
    ensures ExportRow(item)["tags"] == Str(Join(tags, ", "))
  {
    assert ElementTexts(item["tags"].elems) == tags;
  }

  /**
   * What the store holds for a product (its record merged over whatever was
   * there) keeps every field on export, and its tag list becomes the tags
   * joined with `, `.
   */
  lemma ExportRowOfRecord(existing: Record, p: TransformProduct)
    ensures var stored := Scraper.Merge(existing, ToRecord(p));
      ExportRow(stored) == stored["tags" := Str(Join(p.tags, ", "))]
  {
    var stored := Scraper.Merge(existing, ToRecord(p));
    ExportRowOfStrings(stored, p.tags);
  }

  /** The tag cell of a scraped product: `BEST, NEW`, `BEST`, `NEW` or empty. */
  lemma ExportedTagCell(ctx: Scraper.Context, id: int)
    ensures Join(Scraper.GetTags(ctx, id), ", ") ==
      if id in ctx.bestProductNos && id in ctx.newProductNos then "BEST, NEW"
      else if id in ctx.bestProductNos then "BEST"
      else if id in ctx.newProductNos then "NEW"
      else ""
  {
  }
}

=== FILE: products.dfy ===
/**
 * The vendor's listing records, narrowed to the fields the scraper reads, and
 * the flat record it persists (`Product`, `ProductPage`, `ITransformProduct`).
 * The vendor fields whose absence changes what the scraper does are options:
 * the two ids, which throw when absent, and the nested price and review
 * fields, which fall back to a default. The name, the sale price and the
 * page's `simpleProducts` and `totalCount` are always present here.
 */
module Products {
  import opened Wrappers

  datatype BenefitsView = BenefitsView(
    discountedSalePrice: Option<int>,
    mobileDiscountedSalePrice: Option<int>)

  datatype ReviewAmount = ReviewAmount(totalReviewCount: Option<int>)

  /** A raw listing record; everything not read by the transformer is dropped. */
  datatype Product = Product(
    id: Option<int>,
    productNo: Option<int>,
    name: string,
    salePrice: int,
    benefitsView: Option<BenefitsView>,
    reviewAmount: Option<ReviewAmount>)

  /** One page of the listing response. */
  datatype ProductPage = ProductPage(simpleProducts: seq<Product>, totalCount: int)

  /** The normalized record written to the store. */
  datatype TransformProduct = TransformProduct(
    productNo: string,
    id: string,
    name: string,
    url: string,
    salePrice: int,
    discountedSalePrice: int,
    mobileDiscountedSalePrice: int,
    totalReviewCount: int,
    tags: seq<string>)

  /** A JSON value as the store holds it (nested objects are not modelled). */
  datatype Value = Null | Bool(b: bool) | Num(n: int) | Str(s: string) | Arr(elems: seq<Value>)

  /** A JSON object: field name to value. */
  type Record = map<string, Value>

  /** The nine field names of a normalized record. */
  const FieldNames: set<string> := {
    "productNo", "id", "name", "url", "salePrice", "discountedSalePrice",
    "mobileDiscountedSalePrice", "totalReviewCount", "tags"}

  /** The JSON object a normalized record is serialized to. */
  function ToRecord(p: TransformProduct): (r: Record)
    ensures r.Keys == FieldNames
    ensures r["id"] == Str(p.id) && r["productNo"] == Str(p.productNo)
    ensures r["tags"].Arr? && |r["tags"].elems| == |p.tags|
    ensures forall i | 0 <= i < |p.tags| :: r["tags"].elems[i] == Str(p.tags[i])
  {
    map[
      "productNo" := Str(p.productNo),
      "id" := Str(p.id),
      "name" := Str(p.name),
      "url" := Str(p.url),
      "salePrice" := Num(p.salePrice),
      "discountedSalePrice" := Num(p.discountedSalePrice),
      "mobileDiscountedSalePrice" := Num(p.mobileDiscountedSalePrice),
      "totalReviewCount" := Num(p.totalReviewCount),
      "tags" := Arr(seq(|p.tags|, i requires 0 <= i < |p.tags| => Str(p.tags[i])))]
  }

  /** The record can be read back as the product that was written. */
  function FromRecord(r: Record): Option<TransformProduct>
  {
    if FieldNames <= r.Keys
       && r["productNo"].Str? && r["id"].Str? && r["name"].Str? && r["url"].Str?
       && r["salePrice"].Num? && r["discountedSalePrice"].Num?
       && r["mobileDiscountedSalePrice"].Num? && r["totalReviewCount"].Num?
       && r["tags"].Arr? && forall i | 0 <= i < |r["tags"].elems| :: r["tags"].elems[i].Str?
    then
      var tags := r["tags"].elems;
      Some(TransformProduct(
        r["productNo"].s, r["id"].s, r["name"].s, r["url"].s,
        r["salePrice"].n, r["discountedSalePrice"].n,
        r["mobileDiscountedSalePrice"].n, r["totalReviewCount"].n,
        seq(|tags|, i requires 0 <= i < |tags| && tags[i].Str? => tags[i].s)))
    else None
  }

  lemma RecordRoundTrip(p: TransformProduct)
    ensures FromRecord(ToRecord(p)) == Some(p)
  {
    var r := ToRecord(p);
    var q := FromRecord(r).value;
    assert q.tags == p.tags;
  }
}

=== FILE: scraper.dfy ===
/**
 * The smart-store scraper (`Naver`): the record transformer and tagger, the
 * page URL builder, the merge-on-write keyed store, the paging loop with its
 * early stop, and the `Naver` object whose channel fields are filled in once
 * the store lookup has answered.
 *
 * The network is an oracle: `lookup` answers the store-lookup request by URL,
 * `fetch` answers a listing request by its URL and Referer header. The JSON
 * file store is an in-memory map from product id to record.
 */
module Scraper {
  import opened Wrappers
  import opened Text
  import opened Products

  /** Products requested per listing page. */
  const PageSize: int := 40

  const BestTag: string := "BEST"
  const NewTag: string := "NEW"

  /** What a run can throw. */
  datatype Error =
    | ChannelUidUnknown(store: string)  // the store lookup request failed
    | TypeError(field: string)          // a field read through was absent
    | RequestFailed(reason: string)     // a listing request failed

  /** What the private helpers read from the scraper object. */
  datatype Context = Context(
    defaultUrl: string,
    name: string,
    channelUid: string,
    bestProductNos: seq<int>,
    newProductNos: seq<int>)

  /** The two strings one listing request is made of. */
  datatype PageUrl = PageUrl(url: string, headerReferer: string)

  // ---------------------------------------------------------------------------
  // Tags and record transformation
  // ---------------------------------------------------------------------------

  /** `getTags`: BEST when the id is a best seller, then NEW when it is newly listed. */
  function GetTags(ctx: Context, id: int): (tags: seq<string>)
    ensures BestTag in tags <==> id in ctx.bestProductNos
    ensures NewTag in tags <==> id in ctx.newProductNos
    ensures forall t | t in tags :: t == BestTag || t == NewTag
    ensures |tags| <= 2 && forall i, j | 0 <= i < j < |tags| :: tags[i] != tags[j]
    ensures |tags| == 2 ==> tags == [BestTag, NewTag]
  {
    (if id in ctx.bestProductNos then [BestTag] else [])
    + (if id in ctx.newProductNos then [NewTag] else [])
  }

  /** JavaScript `v || fallback` on an optional number: absent and 0 are both falsy. */
  function OrElse(v: Option<int>, fallback: int): int
  {
    if v.Some? && v.value != 0 then v.value else fallback
  }

  /** `product.benefitsView?.discountedSalePrice`. */
  function Discounted(p: Product): Option<int>
  {
    if p.benefitsView.Some? then p.benefitsView.value.discountedSalePrice else None
  }

  /** `product.benefitsView?.mobileDiscountedSalePrice`. */
  function MobileDiscounted(p: Product): Option<int>
  {
    if p.benefitsView.Some? then p.benefitsView.value.mobileDiscountedSalePrice else None
  }

  /** `product.reviewAmount?.totalReviewCount`. */
  function ReviewCount(p: Product): Option<int>
  {
    if p.reviewAmount.Some? then p.reviewAmount.value.totalReviewCount else None
  }

  /** A number is present and non-zero, i.e. truthy. */
  predicate Truthy(v: Option<int>) { v.Some? && v.value != 0 }

  /**
   * The relation between a raw record and its normalized form: decimal ids,
   * the product page URL, prices defaulting to the sale price, the review count
   * defaulting to 0, and the tags of the id.
   */
  ghost predicate Normalizes(ctx: Context, p: Product, t: TransformProduct)
  {
    && p.id.Some? && p.productNo.Some?
    && t.id == IntToString(p.id.value)
    && t.productNo == IntToString(p.productNo.value)
    && t.name == p.name
    && t.url == ctx.defaultUrl + "/" + ctx.name + "/products/" + t.id
    && t.salePrice == p.salePrice
    && t.discountedSalePrice == (if Truthy(Discounted(p)) then Discounted(p).value else p.salePrice)
    && t.mobileDiscountedSalePrice
       == (if Truthy(MobileDiscounted(p)) then MobileDiscounted(p).value else p.salePrice)
    && t.totalReviewCount == (if Truthy(ReviewCount(p)) then ReviewCount(p).value else 0)
    && t.tags == GetTags(ctx, p.id.value)
  }

  /** The object literal built for one product; `id.toString()` throws when the id is absent. */
  function TransformOne(ctx: Context, p: Product): (r: Result<TransformProduct, Error>)
    ensures r.Success? <==> p.id.Some? && p.productNo.Some?
    ensures r.Success? ==> Normalizes(ctx, p, r.value)
    ensures p.id.None? ==> r == Failure(TypeError("id"))
    ensures p.id.Some? && p.productNo.None? ==> r == Failure(TypeError("productNo"))
  {
    if p.id.None? then Failure(TypeError("id"))
    else if p.productNo.None? then Failure(TypeError("productNo"))
    else
      var id := IntToString(p.id.value);
      Success(TransformProduct(
        IntToString(p.productNo.value),
        id,
        p.name,
        ctx.defaultUrl + "/" + ctx.name + "/products/" + id,
        p.salePrice,
        OrElse(Discounted(p), p.salePrice),
        OrElse(MobileDiscounted(p), p.salePrice),
        OrElse(ReviewCount(p), 0),
        GetTags(ctx, p.id.value)))
  }

  /** Every record carries both numeric identifiers. */
  predicate Identified(data: seq<Product>)
  {
    forall i | 0 <= i < |data| :: data[i].id.Some? && data[i].productNo.Some?
  }

  /** `transformData`: one output per input, in order; the first unidentified record throws. */
  function TransformData(ctx: Context, data: seq<Product>): (r: Result<seq<TransformProduct>, Error>)
    ensures r.Success? <==> Identified(data)
    ensures r.Success? ==> |r.value| == |data|
    ensures r.Success? ==> forall i | 0 <= i < |data| :: Normalizes(ctx, data[i], r.value[i])
    ensures r.Failure? ==> exists i | 0 <= i < |data| ::
              Identified(data[..i]) && TransformOne(ctx, data[i]) == Failure(r.error)
    decreases |data|
  {
    if |data| == 0 then Success([])
    else
      match TransformOne(ctx, data[0])
      case Failure(e) =>
        assert Identified(data[..0]);
        Failure(e)
      case Success(head) =>
        var tail := TransformData(ctx, data[1..]);
        if tail.Failure? then
          FirstFailureShifts(ctx, data, tail.error);
          Failure(tail.error)
        else Success([head] + tail.value)
  }

  /** A first failure of the records after the head, found at `i`, is the first failure of the whole batch at `i + 1`. */
  lemma FirstFailureShifts(ctx: Context, data: seq<Product>, e: Error)
    requires |data| > 0 && TransformOne(ctx, data[0]).Success?
    requires exists i | 0 <= i < |data| - 1 :: Identified(data[1..][..i]) && TransformOne(ctx, data[1..][i]) == Failure(e)
    ensures exists i | 0 <= i < |data| :: Identified(data[..i]) && TransformOne(ctx, data[i]) == Failure(e)
  {
    var i :| 0 <= i < |data| - 1 && Identified(data[1..][..i]) && TransformOne(ctx, data[1..][i]) == Failure(e);
    assert data[..i + 1] == [data[0]] + data[1..][..i];
    assert data[i + 1] == data[1..][i];
  }

  /** Some record of the batch carries the NEW tag. */
  predicate HasNew(batch: seq<TransformProduct>)
  {
    exists i | 0 <= i < |batch| :: NewTag in batch[i].tags
  }

  /** A transformed page signals the stop exactly when one of its ids is newly listed. */
  lemma HasNewIff(ctx: Context, data: seq<Product>)
    requires TransformData(ctx, data).Success?
    ensures HasNew(TransformData(ctx, data).value)
            <==> exists i | 0 <= i < |data| :: data[i].id.value in ctx.newProductNos
  {
    var out := TransformData(ctx, data).value;
    if HasNew(out) {
      var i :| 0 <= i < |out| && NewTag in out[i].tags;
      assert Normalizes(ctx, data[i], out[i]);
    }
    if exists i | 0 <= i < |data| :: data[i].id.value in ctx.newProductNos {
      var i :| 0 <= i < |data| && data[i].id.value in ctx.newProductNos;
      assert Normalizes(ctx, data[i], out[i]);
    }
  }

  // ---------------------------------------------------------------------------
  // Listing request strings
  // ---------------------------------------------------------------------------

  /** `getPageUrl`: the channel-scoped API URL and the storefront category page as Referer. */
  function GetPageUrl(ctx: Context, pageNum: int, pageSize: int): PageUrl
  {
    PageUrl(
      ctx.defaultUrl + "/i/v2/channels/" + ctx.channelUid
        + "/categories/ALL/products?categorySearchType=STDCATG&sortType=TOTALSALE&page="
        + IntToString(pageNum) + "&pageSize=" + IntToString(pageSize),
      ctx.defaultUrl + "/" + ctx.name + "/category/ALL?st=TOTALSALE&dt=BIG_IMAGE&page="
        + IntToString(pageNum) + "&size=" + IntToString(pageSize))
  }

  /** Equal strings with the same head and the same two-part tail have the same middle. */
  lemma CancelAround(head: string, x: string, y: string, a: string, b: string)
    requires head + x + a + b == head + y + a + b
    ensures x == y
  {
    var lx, ly := head + x + a + b, head + y + a + b;
    assert |x| == |y|;
    assert x == lx[|head|..|head| + |x|];
    assert y == ly[|head|..|head| + |y|];
  }

  /**
   * Each page has its own request: two page numbers give the same API URL, or
   * the same Referer, only when they are equal.
   */
  lemma GetPageUrlDistinct(ctx: Context, m: int, n: int, pageSize: int)
    ensures GetPageUrl(ctx, m, pageSize).url == GetPageUrl(ctx, n, pageSize).url ==> m == n
    ensures GetPageUrl(ctx, m, pageSize).headerReferer == GetPageUrl(ctx, n, pageSize).headerReferer ==> m == n
  {
    var apiHead := ctx.defaultUrl + "/i/v2/channels/" + ctx.channelUid
      + "/categories/ALL/products?categorySearchType=STDCATG&sortType=TOTALSALE&page=";
    var refHead := ctx.defaultUrl + "/" + ctx.name + "/category/ALL?st=TOTALSALE&dt=BIG_IMAGE&page=";
    if GetPageUrl(ctx, m, pageSize).url == GetPageUrl(ctx, n, pageSize).url {
      CancelAround(apiHead, IntToString(m), IntToString(n), "&pageSize=", IntToString(pageSize));
      IntToStringInjective(m, n);
    }
    if GetPageUrl(ctx, m, pageSize).headerReferer == GetPageUrl(ctx, n, pageSize).headerReferer {
      CancelAround(refHead, IntToString(m), IntToString(n), "&size=", IntToString(pageSize));
      IntToStringInjective(m, n);
    }
  }

  /** `Math.ceil(n / d)` for integral `n`: rounds up for positive quotients, toward zero for negative ones. */
  function CeilDiv(n: int, d: int): (r: int)
    requires d > 0
    ensures (r - 1) * d < n <= r * d
  {
    if n >= 0 then (n + d - 1) / d else -((-n) / d)
  }

  // ---------------------------------------------------------------------------
  // Keyed store
  // ---------------------------------------------------------------------------

  /** The JSON file store: product id to record. */
  type Store = map<string, Record>

  /** `getObjectDefault('/' + key, {})`. */
  function Existing(store: Store, key: string): Record
  {
    if key in store then store[key] else map[]
  }

  /** `Object.assign({}, old, new)`: all fields of both, the new value winning on a clash. */
  function Merge(existing: Record, incoming: Record): (r: Record)
    ensures r.Keys == existing.Keys + incoming.Keys
    ensures forall k | k in incoming :: r[k] == incoming[k]
    ensures forall k | k in existing && k !in incoming :: r[k] == existing[k]
  {
    existing + incoming
  }

  /** Read, merge and write back one product. */
  function SaveOne(store: Store, p: TransformProduct): (r: Store)
    ensures r.Keys == store.Keys + {p.id}
    ensures r[p.id] == Merge(Existing(store, p.id), ToRecord(p))
    ensures forall k | k in store && k != p.id :: r[k] == store[k]
  {
    store[p.id := Merge(Existing(store, p.id), ToRecord(p))]
  }

  /** The record stored for a product reads back as that product, whatever fields an older record left there. */
  lemma StoredRecordReadsBack(store: Store, p: TransformProduct)
    ensures FromRecord(SaveOne(store, p)[p.id]) == Some(p)
  {
    var stored := SaveOne(store, p)[p.id];
    RecordRoundTrip(p);
    assert forall k | k in FieldNames :: stored[k] == ToRecord(p)[k];
  }

  /** The store after saving the batch in order. */
  function SaveAll(store: Store, batch: seq<TransformProduct>): Store
    decreases |batch|
  {
    if batch == [] then store
    else SaveOne(SaveAll(store, batch[..|batch| - 1]), batch[|batch| - 1])
  }

  /** Saving two batches one after the other is saving their concatenation. */
  lemma {:induction false} SaveAllAppend(store: Store, a: seq<TransformProduct>, b: seq<TransformProduct>)
    ensures SaveAll(SaveAll(store, a), b) == SaveAll(store, a + b)
    decreases |b|
  {
    if b != [] {
      var b' := b[..|b| - 1];
      assert (a + b)[..|a + b| - 1] == a + b';
      assert (a + b)[|a + b| - 1] == b[|b| - 1];
      SaveAllAppend(store, a, b');
    } else {
      assert a + b == a;
    }
  }

  /** The last product of the batch with the given id. */
  function LastWithId(batch: seq<TransformProduct>, key: string): (r: Option<TransformProduct>)
    ensures r.Some? ==> r.value in batch && r.value.id == key
    ensures r.None? ==> forall i | 0 <= i < |batch| :: batch[i].id != key
    ensures r.Some? ==> exists i | 0 <= i < |batch| ::
              batch[i] == r.value && forall j | i < j < |batch| :: batch[j].id != key
    decreases |batch|
  {
    if batch == [] then None
    else if batch[|batch| - 1].id == key then Some(batch[|batch| - 1])
    else LastWithId(batch[..|batch| - 1], key)
  }

  /** Every stored record has the nine fields, so a newer write hides all of an older one. */
  lemma MergeOverwrites(existing: Record, p: TransformProduct, q: TransformProduct)
    ensures Merge(Merge(existing, ToRecord(q)), ToRecord(p)) == Merge(existing, ToRecord(p))
  {
  }

  /**
   * What saving a batch leaves at each key: the old record with the fields of
   * the last product of that id merged over it; keys the batch does not touch
   * are unchanged.
   */
  lemma {:induction false} SaveAllAt(store: Store, batch: seq<TransformProduct>, key: string)
    ensures key in SaveAll(store, batch) <==> key in store || LastWithId(batch, key).Some?
    ensures LastWithId(batch, key).None? && key in store ==> SaveAll(store, batch)[key] == store[key]
    ensures LastWithId(batch, key).Some?
            ==> SaveAll(store, batch)[key] == Merge(Existing(store, key), ToRecord(LastWithId(batch, key).value))
    decreases |batch|
  {
    if batch != [] {
      var init, p := batch[..|batch| - 1], batch[|batch| - 1];
      SaveAllAt(store, init, key);
      if p.id == key && LastWithId(init, key).Some? {
        MergeOverwrites(Existing(store, key), p, LastWithId(init, key).value);
      }
    }
  }

  /** Saving the same batch twice leaves the store as saving it once. */
  lemma SaveAllIdempotent(store: Store, batch: seq<TransformProduct>)
    ensures SaveAll(SaveAll(store, batch), batch) == SaveAll(store, batch)
  {
    var once := SaveAll(store, batch);
    var twice := SaveAll(once, batch);
    forall key | key in once || key in twice
      ensures key in once && key in twice && twice[key] == once[key]
    {
      SaveAllAt(store, batch, key);
      SaveAllAt(once, batch, key);
      var last := LastWithId(batch, key);
      if last.Some? {
        MergeOverwrites(Existing(store, key), last.value, last.value);
      }
    }
  }

  // ---------------------------------------------------------------------------
  // Paging loop, as a function of the oracle
  // ---------------------------------------------------------------------------

  /** `getProductPage`: a GET of the URL with the Referer header; the response body, or why it failed. */
  function GetProductPage(fetch: PageUrl -> Result<ProductPage, string>, page: PageUrl): Result<ProductPage, string>
  {
    fetch(page)
  }

  /** Requesting and transforming one listing page. */
  function Load(ctx: Context, fetch: PageUrl -> Result<ProductPage, string>, pageNum: int)
    : Result<seq<TransformProduct>, Error>
  {
    match GetProductPage(fetch, GetPageUrl(ctx, pageNum, PageSize))
    case Failure(e) => Failure(RequestFailed(e))
    case Success(page) => TransformData(ctx, page.simpleProducts)
  }

  /** What requesting and transforming each page gives, by page number. */
  type Loads = int -> Result<seq<TransformProduct>, Error>

  /** The pages as the scraper object loads them. */
  function LoadsOf(ctx: Context, fetch: PageUrl -> Result<ProductPage, string>): Loads
  {
    n => Load(ctx, fetch, n)
  }

  /** `Math.ceil(totalCount / 40)` of page 1; when page 1 fails the run ends before it is read. */
  function TotalPage(ctx: Context, fetch: PageUrl -> Result<ProductPage, string>): int
  {
    match fetch(GetPageUrl(ctx, 1, PageSize))
    case Failure(_) => 1
    case Success(first) => CeilDiv(first.totalCount, PageSize)
  }

  /** The pages requested, in order, and how the loop ended. */
  datatype Run = Run(trace: seq<int>, result: Result<(), Error>)

  /** A page loads and carries no NEW tag, so the loop goes on past it. */
  predicate Quiet(loads: Loads, pageNum: int)
  {
    loads(pageNum).Success? && !HasNew(loads(pageNum).value)
  }

  /**
   * A page of the store goes on the loop exactly when it is fetched, every
   * record on it has both identifiers, and none of its ids is newly listed.
   */
  lemma QuietIff(ctx: Context, fetch: PageUrl -> Result<ProductPage, string>, pageNum: int)
    ensures Quiet(LoadsOf(ctx, fetch), pageNum)
            <==> var res := fetch(GetPageUrl(ctx, pageNum, PageSize));
                 && res.Success? && Identified(res.value.simpleProducts)
                 && forall i | 0 <= i < |res.value.simpleProducts|
                      :: res.value.simpleProducts[i].id.value !in ctx.newProductNos
  {
    var res := fetch(GetPageUrl(ctx, pageNum, PageSize));
    if res.Success? && Identified(res.value.simpleProducts) {
      HasNewIff(ctx, res.value.simpleProducts);
    }
  }

  /** The pages after the first: `while (pageNum <= totalPage)`, stopping after a NEW tag. */
  function HarvestFrom(loads: Loads, pageNum: int, totalPage: int): Run
    decreases totalPage - pageNum + 1
  {
    if pageNum > totalPage then Run([], Success(()))
    else
      match loads(pageNum)
      case Failure(e) => Run([pageNum], Failure(e))
      case Success(items) =>
        if HasNew(items) then Run([pageNum], Success(()))
        else
          var rest := HarvestFrom(loads, pageNum + 1, totalPage);
          Run([pageNum] + rest.trace, rest.result)
  }

  /** `getProducts`: page 1, then pages 2 to `totalPage` unless page 1 carried NEW. */
  function Harvest(loads: Loads, totalPage: int): Run
  {
    match loads(1)
    case Failure(e) => Run([1], Failure(e))
    case Success(items) =>
      if HasNew(items) then Run([1], Success(()))
      else
        var rest := HarvestFrom(loads, 2, totalPage);
        Run([1] + rest.trace, rest.result)
  }

  /** The number of pages the loop may visit: page 1 always, and at most `totalPage`. */
  function PageCount(totalPage: int): int
  {
    if totalPage < 1 then 1 else totalPage
  }

  /** The records saved while visiting the given pages: those of every page that loaded, in order. */
  function SavedFrom(loads: Loads, pages: seq<int>): seq<TransformProduct>
    decreases |pages|
  {
    if pages == [] then []
    else
      var last := loads(pages[|pages| - 1]);
      SavedFrom(loads, pages[..|pages| - 1]) + (if last.Success? then last.value else [])
  }

  /** Page 1 is requested whatever the total, so the run is the loop's tail from page 1 up to `PageCount`. */
  lemma HarvestIsTailFromOne(loads: Loads, totalPage: int)
    ensures Harvest(loads, totalPage) == HarvestFrom(loads, 1, PageCount(totalPage))
  {
    if Quiet(loads, 1) && totalPage < 1 {
      assert HarvestFrom(loads, 2, PageCount(totalPage)) == Run([], Success(()));
    }
  }

  /** The tail of the loop visits `pageNum, pageNum+1, ...`, at most up to `totalPage`. */
  lemma {:induction false} HarvestFromTrace(loads: Loads, pageNum: int, totalPage: int)
    ensures var r := HarvestFrom(loads, pageNum, totalPage);
      && (pageNum > totalPage ==> r.trace == [] && r.result.Success?)
      && (pageNum <= totalPage ==> 1 <= |r.trace| <= totalPage - pageNum + 1)
      && (forall i | 0 <= i < |r.trace| :: r.trace[i] == pageNum + i)
    decreases totalPage - pageNum + 1
  {
    if pageNum <= totalPage && Quiet(loads, pageNum) {
      HarvestFromTrace(loads, pageNum + 1, totalPage);
    }
  }

  /** Every page of the tail but its last loaded without a NEW tag. */
  lemma {:induction false} HarvestFromQuiet(loads: Loads, pageNum: int, totalPage: int)
    ensures var r := HarvestFrom(loads, pageNum, totalPage);
      forall p | pageNum <= p < pageNum + |r.trace| - 1 :: Quiet(loads, p)
    decreases totalPage - pageNum + 1
  {
    if pageNum <= totalPage && Quiet(loads, pageNum) {
      HarvestFromQuiet(loads, pageNum + 1, totalPage);
    }
  }

  /** The tail's last page failed, carried NEW or was page `totalPage`; the tail fails exactly when that page failed. */
  lemma {:induction false} HarvestFromEnd(loads: Loads, pageNum: int, totalPage: int)
    requires pageNum <= totalPage
    ensures var r := HarvestFrom(loads, pageNum, totalPage);
      var last := pageNum + |r.trace| - 1;
      && (!Quiet(loads, last) || last == totalPage)
      && (r.result.Failure? <==> loads(last).Failure?)
    decreases totalPage - pageNum + 1
  {
    if Quiet(loads, pageNum) && pageNum < totalPage {
      HarvestFromEnd(loads, pageNum + 1, totalPage);
    }
  }

  /**
   * The pages requested are 1, 2, ..., k with no gap or repeat; k is at most
   * `PageCount(totalPage)`; every page before the k-th loaded without a NEW
   * tag; the k-th failed, carried NEW, or was the last page; and the run
   * fails exactly when the k-th page failed.
   */
  lemma HarvestShape(loads: Loads, totalPage: int)
    ensures var h := Harvest(loads, totalPage);
      && 1 <= |h.trace| <= PageCount(totalPage)
      && (forall i | 0 <= i < |h.trace| :: h.trace[i] == i + 1)
      && (forall p | 1 <= p < |h.trace| :: Quiet(loads, p))
      && (!Quiet(loads, |h.trace|) || |h.trace| == PageCount(totalPage))
      && (h.result.Failure? <==> loads(|h.trace|).Failure?)
  {
    HarvestIsTailFromOne(loads, totalPage);
    HarvestFromTrace(loads, 1, PageCount(totalPage));
    HarvestFromQuiet(loads, 1, PageCount(totalPage));
    HarvestFromEnd(loads, 1, PageCount(totalPage));
  }

  /** A NEW tag on page 1 ends the run after one request, whatever the total. */
  lemma NewOnFirstPageStops(loads: Loads, totalPage: int)
    requires loads(1).Success? && HasNew(loads(1).value)
    ensures Harvest(loads, totalPage) == Run([1], Success(()))
  {
  }

  /** When no page fails or carries NEW, the run requests exactly pages 1 to `PageCount(totalPage)` and succeeds. */
  lemma AllQuietVisitsEveryPage(loads: Loads, totalPage: int)
    requires forall p | 1 <= p <= PageCount(totalPage) :: Quiet(loads, p)
    ensures Harvest(loads, totalPage).trace == seq(PageCount(totalPage), i => i + 1)
    ensures Harvest(loads, totalPage).result.Success?
  {
    var h := Harvest(loads, totalPage);
    HarvestShape(loads, totalPage);
    assert Quiet(loads, |h.trace|);
    assert |h.trace| == PageCount(totalPage);
  }

  /** With 81 products listed and no NEW tag, pages 1, 2 and 3 are requested and no more. */
  lemma EightyOneProductsTakeThreePages(loads: Loads)
    requires forall p | 1 <= p <= 3 :: Quiet(loads, p)
    ensures Harvest(loads, CeilDiv(81, PageSize)).trace == [1, 2, 3]
  {
    AllQuietVisitsEveryPage(loads, CeilDiv(81, PageSize));
  }

  /** One step of the tail, unfolded. */
  lemma HarvestFromStep(loads: Loads, pageNum: int, totalPage: int)
    requires pageNum <= totalPage
    ensures var r := HarvestFrom(loads, pageNum, totalPage);
      var rest := HarvestFrom(loads, pageNum + 1, totalPage);
      && (loads(pageNum).Failure? ==> r == Run([pageNum], Failure(loads(pageNum).error)))
      && (loads(pageNum).Success? && HasNew(loads(pageNum).value) ==> r == Run([pageNum], Success(())))
      && (Quiet(loads, pageNum) ==> r == Run([pageNum] + rest.trace, rest.result))
  {
  }

  /** Saving one more page's records. */
  lemma SavedFromSnoc(loads: Loads, pages: seq<int>, pageNum: int)
    ensures loads(pageNum).Failure? ==> SavedFrom(loads, pages + [pageNum]) == SavedFrom(loads, pages)
    ensures loads(pageNum).Success?
            ==> SavedFrom(loads, pages + [pageNum]) == SavedFrom(loads, pages) + loads(pageNum).value
  {
    assert (pages + [pageNum])[..|pages|] == pages;
    assert SavedFrom(loads, pages) + [] == SavedFrom(loads, pages);
  }

  /** The records saved over two runs of pages, one after the other. */
  lemma {:induction false} SavedFromAppend(loads: Loads, a: seq<int>, b: seq<int>)
    ensures SavedFrom(loads, a + b) == SavedFrom(loads, a) + SavedFrom(loads, b)
    decreases |b|
  {
    if b == [] {
      assert a + b == a;
    } else {
      var init, last := b[..|b| - 1], b[|b| - 1];
      assert a + b == (a + init) + [last];
      assert b == init + [last];
      SavedFromAppend(loads, a, init);
      SavedFromSnoc(loads, a + init, last);
      SavedFromSnoc(loads, init, last);
    }
  }

  /** Page 1 of the scraper object's run, in terms of loading that page. */
  lemma FirstPageOf(ctx: Context, fetch: PageUrl -> Result<ProductPage, string>, totalPage: int)
    ensures var load := Load(ctx, fetch, 1);
      var h := Harvest(LoadsOf(ctx, fetch), totalPage);
      var rest := HarvestFrom(LoadsOf(ctx, fetch), 2, totalPage);
      && (load.Failure? ==> h == Run([1], Failure(load.error)))
      && (load.Success? && HasNew(load.value) ==> h == Run([1], Success(())))
      && (load.Success? && !HasNew(load.value) ==> h == Run([1] + rest.trace, rest.result))
      && SavedFrom(LoadsOf(ctx, fetch), [1]) == (if load.Success? then load.value else [])
  {
    SavedFromSnoc(LoadsOf(ctx, fetch), [], 1);
    assert [] + [1] == [1];
  }

  /** One later page of the scraper object's run, in terms of loading that page. */
  lemma NextPageOf(ctx: Context, fetch: PageUrl -> Result<ProductPage, string>, pageNum: int, totalPage: int)
    requires pageNum <= totalPage
    ensures Load(ctx, fetch, pageNum).Failure?
            ==> HarvestFrom(LoadsOf(ctx, fetch), pageNum, totalPage)
                == Run([pageNum], Failure(Load(ctx, fetch, pageNum).error))
    ensures Load(ctx, fetch, pageNum).Success? && HasNew(Load(ctx, fetch, pageNum).value)
            ==> HarvestFrom(LoadsOf(ctx, fetch), pageNum, totalPage) == Run([pageNum], Success(()))
    ensures Load(ctx, fetch, pageNum).Success? && !HasNew(Load(ctx, fetch, pageNum).value)
            ==> var rest := HarvestFrom(LoadsOf(ctx, fetch), pageNum + 1, totalPage);
                HarvestFrom(LoadsOf(ctx, fetch), pageNum, totalPage) == Run([pageNum] + rest.trace, rest.result)
  {
    assert LoadsOf(ctx, fetch)(pageNum) == Load(ctx, fetch, pageNum);
    HarvestFromStep(LoadsOf(ctx, fetch), pageNum, totalPage);
  }

  /** Regrouping the pages visited so far, the page at hand, and the pages still to come. */
  lemma AppendRegroup(done: seq<int>, pageNum: int, rest: seq<int>)
    ensures done + ([pageNum] + rest) == (done + [pageNum]) + rest
  {
  }

  /** The records saved once one more page of the scraper object's run is handled. */
  lemma NextPageSaved(ctx: Context, fetch: PageUrl -> Result<ProductPage, string>, done: seq<int>, pageNum: int)
    ensures Load(ctx, fetch, pageNum).Failure?
            ==> SavedFrom(LoadsOf(ctx, fetch), done + [pageNum]) == SavedFrom(LoadsOf(ctx, fetch), done)
    ensures Load(ctx, fetch, pageNum).Success?
            ==> SavedFrom(LoadsOf(ctx, fetch), done + [pageNum])
                == SavedFrom(LoadsOf(ctx, fetch), done) + Load(ctx, fetch, pageNum).value
  {
    assert LoadsOf(ctx, fetch)(pageNum) == Load(ctx, fetch, pageNum);
    SavedFromSnoc(LoadsOf(ctx, fetch), done, pageNum);
  }

  // ---------------------------------------------------------------------------
  // The scraper object
  // ---------------------------------------------------------------------------

  datatype Channel = Channel(channelUid: string, channelName: string)

  datatype SpecialProducts = SpecialProducts(bestProductNos: Option<seq<int>>, newProductNos: Option<seq<int>>)

  /** The store-lookup response body. */
  datatype MarketInfo = MarketInfo(channel: Option<Channel>, specialProducts: Option<SpecialProducts>)

  /** `list || []`: an absent id list reads as empty. */
  function OrEmpty(list: Option<seq<int>>): seq<int>
  {
    if list.Some? then list.value else []
  }

  /** The file a JSON store is opened on, for a channel name. */
  function DbPath(channelName: string): string
  {
    "db/" + channelName
  }

  /** Opening a JSON store loads the file when it exists and starts empty otherwise. */
  function Open(files: map<string, Store>, path: string): Store
  {
    if path in files then files[path] else map[]
  }

  class Naver {
    const defaultUrl: string
    const name: string
    /** The file the JSON store was opened on; none before the channel is known. */
    var dbPath: Option<string>
    var db: Store
    var channelUid: string
    var channelName: string
    var bestProductNos: seq<int>
    var newProductNos: seq<int>

    constructor (defaultUrl: string, name: string)
      ensures this.defaultUrl == defaultUrl && this.name == name
      ensures dbPath == None && db == map[]
      ensures channelUid == "" && channelName == ""
      ensures bestProductNos == [] && newProductNos == []
    {
      this.defaultUrl := defaultUrl;
      this.name := name;
      dbPath := None;
      db := map[];
      channelUid := "";
      channelName := "";
      bestProductNos := [];
      newProductNos := [];
    }

    /** The fields the transformer, the tagger and the URL builder read. */
    function CurrentContext(): Context
      reads this`channelUid, this`bestProductNos, this`newProductNos
    {
      Context(defaultUrl, name, channelUid, bestProductNos, newProductNos)
    }

    /** The store-lookup request. */
    function MarketInfoUrl(): string
    {
      defaultUrl + "/i/v1/smart-stores?url=" + name
    }

    /** `getMarketInfo`: any failure of the lookup becomes an error naming the store. */
    function GetMarketInfo(lookup: string -> Result<MarketInfo, string>): (r: Result<MarketInfo, Error>)
      ensures r.Success? <==> lookup(MarketInfoUrl()).Success?
      ensures r.Success? ==> r.value == lookup(MarketInfoUrl()).value
      ensures r.Failure? ==> r.error == ChannelUidUnknown(name)
    {
      match lookup(MarketInfoUrl())
      case Success(info) => Success(info)
      case Failure(_) => Failure(ChannelUidUnknown(name))
    }

    /**
     * `updateChannelInfo`: takes the channel handle and name, opens the store
     * named after the channel, and takes the special id lists, absent lists
     * read as empty. An absent `channel` throws before anything is assigned;
     * an absent `specialProducts` throws after the channel and store are set.
     */
    method UpdateChannelInfo(info: MarketInfo, files: map<string, Store>) returns (r: Result<(), Error>)
      modifies this
      ensures info.channel.None? ==> r == Failure(TypeError("channel")) && unchanged(this)
      ensures info.channel.Some? ==>
        && channelUid == info.channel.value.channelUid
        && channelName == info.channel.value.channelName
        && dbPath == Some(DbPath(channelName))
        && db == Open(files, DbPath(channelName))
      ensures info.channel.Some? && info.specialProducts.None? ==>
        && r == Failure(TypeError("specialProducts"))
        && bestProductNos == old(bestProductNos) && newProductNos == old(newProductNos)
      ensures info.channel.Some? && info.specialProducts.Some? ==>
        && r == Success(())
        && bestProductNos == OrEmpty(info.specialProducts.value.bestProductNos)
        && newProductNos == OrEmpty(info.specialProducts.value.newProductNos)
    {
      if info.channel.None? {
        return Failure(TypeError("channel"));
      }
      channelUid := info.channel.value.channelUid;
      channelName := info.channel.value.channelName;
      dbPath := Some(DbPath(channelName));
      db := Open(files, DbPath(channelName));
      if info.specialProducts.None? {
        return Failure(TypeError("specialProducts"));
      }
      bestProductNos := OrEmpty(info.specialProducts.value.bestProductNos);
      newProductNos := OrEmpty(info.specialProducts.value.newProductNos);
      r := Success(());
    }

    /** `saveTransformDataOnFile`: merge each product over the record stored at its id, in order. */
    method SaveTransformDataOnFile(data: seq<TransformProduct>)
      modifies this`db
      ensures db == SaveAll(old(db), data)
    {
      for i := 0 to |data|
        invariant db == SaveAll(old(db), data[..i])
      {
        assert data[..i + 1][..i] == data[..i];
        db := SaveOne(db, data[i]);
      }
      assert data[..|data|] == data;
    }

    /**
     * `getProducts`: request page 1, save it, stop on NEW; otherwise request
     * pages 2 to `ceil(totalCount / 40)`, saving each and stopping after the
     * first that carries NEW. Any failure ends the run and is returned.
     */
    method GetProducts(fetch: PageUrl -> Result<ProductPage, string>)
      returns (r: Result<(), Error>, ghost trace: seq<int>)
      modifies this`db
      ensures var run := Harvest(LoadsOf(old(CurrentContext()), fetch), TotalPage(old(CurrentContext()), fetch));
        trace == run.trace && r == run.result
      ensures db == SaveAll(old(db), SavedFrom(LoadsOf(old(CurrentContext()), fetch), trace))
    {
      var ctx := CurrentContext();
      ghost var loads := LoadsOf(ctx, fetch);
      ghost var db0 := db;
      var pageNum := 1;
      var page := GetPageUrl(ctx, pageNum, PageSize);
      trace := [pageNum];
      var firstPageData := GetProductPage(fetch, page);
      var totalPage := if firstPageData.Success? then CeilDiv(firstPageData.value.totalCount, PageSize) else 1;
      assert TotalPage(ctx, fetch) == totalPage;
      FirstPageOf(ctx, fetch, totalPage);
      if firstPageData.Failure? {
        assert Load(ctx, fetch, 1) == Failure(RequestFailed(firstPageData.error));
        return Failure(RequestFailed(firstPageData.error)), trace;
      }
      var transformed := TransformData(ctx, firstPageData.value.simpleProducts);
      assert Load(ctx, fetch, 1) == transformed;
      if transformed.Failure? {
        return Failure(transformed.error), trace;
      }
      SaveTransformDataOnFile(transformed.value);
      if HasNew(transformed.value) {
        return Success(()), trace;
      }
      ghost var rest;
      r, rest := GetRemainingPages(ctx, fetch, totalPage);
      SaveAllAppend(db0, SavedFrom(loads, [1]), SavedFrom(loads, rest));
      SavedFromAppend(loads, [1], rest);
      trace := [1] + rest;
    }

    /**
     * The `while` loop of `getProducts`: pages 2 to `totalPage`, each requested,
     * transformed and saved, stopping after the first that carries NEW.
     */
    method GetRemainingPages(ctx: Context, fetch: PageUrl -> Result<ProductPage, string>, totalPage: int)
      returns (r: Result<(), Error>, ghost trace: seq<int>)
      modifies this`db
      ensures trace == HarvestFrom(LoadsOf(ctx, fetch), 2, totalPage).trace
      ensures r == HarvestFrom(LoadsOf(ctx, fetch), 2, totalPage).result
      ensures db == SaveAll(old(db), SavedFrom(LoadsOf(ctx, fetch), trace))
    {
      ghost var loads := LoadsOf(ctx, fetch);
      ghost var whole := HarvestFrom(loads, 2, totalPage);
      ghost var tail := whole;
      ghost var db0 := db;
      trace := [];
      assert trace + tail.trace == whole.trace;
      var pageNum := 2;
      while pageNum <= totalPage
        invariant 2 <= pageNum
        invariant tail == HarvestFrom(loads, pageNum, totalPage)
        invariant whole.trace == trace + tail.trace && whole.result == tail.result
        invariant db == SaveAll(db0, SavedFrom(loads, trace))
        decreases totalPage - pageNum + 1
      {
        var page := GetPageUrl(ctx, pageNum, PageSize);
        ghost var done := trace;
        trace := trace + [pageNum];
        var pageData := GetProductPage(fetch, page);
        NextPageOf(ctx, fetch, pageNum, totalPage);
        NextPageSaved(ctx, fetch, done, pageNum);
        AppendRegroup(done, pageNum, HarvestFrom(loads, pageNum + 1, totalPage).trace);
        if pageData.Failure? {
          assert Load(ctx, fetch, pageNum) == Failure(RequestFailed(pageData.error));
          return Failure(RequestFailed(pageData.error)), trace;
        }
        var transformed := TransformData(ctx, pageData.value.simpleProducts);
        assert Load(ctx, fetch, pageNum) == transformed;
        if transformed.Failure? {
          return Failure(transformed.error), trace;
        }
        SaveTransformDataOnFile(transformed.value);
        SaveAllAppend(db0, SavedFrom(loads, done), transformed.value);
        tail := HarvestFrom(loads, pageNum + 1, totalPage);
        pageNum := pageNum + 1;
        if HasNew(transformed.value) {
          break;
        }
      }
      r := Success(());
    }

    /**
     * `Start`: look the store up, take its channel, walk the listing; the
     * channel name when every step succeeds, the empty string when any throws.
     */
    method Start(
      lookup: string -> Result<MarketInfo, string>,
      files: map<string, Store>,
      fetch: PageUrl -> Result<ProductPage, string>)
      returns (r: string, ghost trace: seq<int>)
      modifies this
      ensures GetMarketInfo(lookup).Failure? ==> r == "" && trace == [] && unchanged(this)
      ensures GetMarketInfo(lookup).Success? && GetMarketInfo(lookup).value.channel.None?
              ==> r == "" && trace == [] && unchanged(this)
      ensures GetMarketInfo(lookup).Success? && GetMarketInfo(lookup).value.channel.Some?
              ==> var channel := GetMarketInfo(lookup).value.channel.value;
                  && channelUid == channel.channelUid && channelName == channel.channelName
                  && dbPath == Some(DbPath(channelName))
      ensures GetMarketInfo(lookup).Success? && GetMarketInfo(lookup).value.channel.Some?
              && GetMarketInfo(lookup).value.specialProducts.None?
              ==> && r == "" && trace == [] && db == Open(files, DbPath(channelName))
                  && bestProductNos == old(bestProductNos) && newProductNos == old(newProductNos)
      ensures GetMarketInfo(lookup).Success? && GetMarketInfo(lookup).value.channel.Some?
              && GetMarketInfo(lookup).value.specialProducts.Some?
              ==> var special := GetMarketInfo(lookup).value.specialProducts.value;
                  var h := Harvest(LoadsOf(CurrentContext(), fetch), TotalPage(CurrentContext(), fetch));
                  && bestProductNos == OrEmpty(special.bestProductNos)
                  && newProductNos == OrEmpty(special.newProductNos)
                  && trace == h.trace
                  && db == SaveAll(Open(files, DbPath(channelName)), SavedFrom(LoadsOf(CurrentContext(), fetch), trace))
                  && r == (if h.result.Success? then channelName else "")
    {
      trace := [];
      var marketInfo := GetMarketInfo(lookup);
      if marketInfo.Failure? {
        return "", trace;
      }
      var updated := UpdateChannelInfo(marketInfo.value, files);
      if updated.Failure? {
        return "", trace;
      }
      var done;
      done, trace := GetProducts(fetch);
      if done.Failure? {
        return "", trace;
      }
      r := channelName;
    }
  }
}

=== FILE: text.dfy ===
/**
 * String helpers shared by the scraper and the command-line layer: the decimal
 * rendering of integral numbers, `String.prototype.indexOf` / `replace` with a
 * literal pattern, `includes` and `Array.prototype.join`.
 */
module Text {
  import opened Wrappers

  predicate IsDigit(c: char) { '0' <= c <= '9' }

  predicate AllDigits(s: string) { forall i | 0 <= i < |s| :: IsDigit(s[i]) }

  function DigitChar(d: nat): (c: char)
    requires d < 10
    ensures IsDigit(c)
  {
    ('0' as int + d) as char
  }

  function DigitValue(c: char): (d: nat)
    requires IsDigit(c)
    ensures d < 10 && DigitChar(d) == c
  {
    c as int - '0' as int
  }

  /** Decimal digits of `n` without leading zeros, as `toString` renders an integral number. */
  function NatToString(n: nat): (s: string)
    ensures |s| >= 1 && AllDigits(s)
    ensures |s| > 1 ==> s[0] != '0'
    decreases n
  {
    if n < 10 then [DigitChar(n)] else NatToString(n / 10) + [DigitChar(n % 10)]
  }

  /** The number a string of decimal digits denotes. */
  function DecimalValue(s: string): nat
    requires AllDigits(s)
    decreases |s|
  {
    if s == [] then 0 else DecimalValue(s[..|s| - 1]) * 10 + DigitValue(s[|s| - 1])
  }

  lemma {:induction false} DecimalRoundTrip(n: nat)
    ensures DecimalValue(NatToString(n)) == n
  {
    var s := NatToString(n);
    if n >= 10 {
      DecimalRoundTrip(n / 10);
      assert s[..|s| - 1] == NatToString(n / 10);
    }
  }

  /** `String(i)` for an integral number: a minus sign before the digits of a negative value. */
  function IntToString(i: int): (s: string)
  {
    if i < 0 then "-" + NatToString(-i) else NatToString(i)
  }

  /** Distinct numbers render to distinct strings, so ids and page numbers keep their identity. */
  lemma IntToStringInjective(a: int, b: int)
    ensures IntToString(a) == IntToString(b) ==> a == b
  {
    if IntToString(a) == IntToString(b) {
      var sa, sb := IntToString(a), IntToString(b);
      if a < 0 && b < 0 {
        assert sa[1..] == NatToString(-a) && sb[1..] == NatToString(-b);
        DecimalRoundTrip(-a);
        DecimalRoundTrip(-b);
      } else if a >= 0 && b >= 0 {
        DecimalRoundTrip(a);
        DecimalRoundTrip(b);
      }
    }
  }

  /** `pat` occurs in `s` starting at index `i`. */
  predicate OccursAt(s: string, pat: string, i: int)
  {
    0 <= i && i + |pat| <= |s| && s[i..i + |pat|] == pat
  }

  /** `s.indexOf(pat, from)`: the first occurrence at or after `from`. */
  function IndexOfFrom(s: string, pat: string, from: nat): (r: Option<nat>)
    ensures r.Some? ==> from <= r.value && OccursAt(s, pat, r.value)
    ensures r.Some? ==> forall j | from <= j < r.value :: !OccursAt(s, pat, j)
    ensures r.None? ==> forall j | from <= j :: !OccursAt(s, pat, j)
    decreases |s| - from
  {
    if from + |pat| > |s| then None
    else if s[from..from + |pat|] == pat then Some(from)
    else IndexOfFrom(s, pat, from + 1)
  }

  /** `s.indexOf(pat)`. */
  function IndexOf(s: string, pat: string): (r: Option<nat>)
    ensures r.Some? ==> OccursAt(s, pat, r.value) && forall j | 0 <= j < r.value :: !OccursAt(s, pat, j)
    ensures r.None? ==> forall j :: !OccursAt(s, pat, j)
  {
    IndexOfFrom(s, pat, 0)
  }

  /** `s.includes(pat)`. */
  predicate Contains(s: string, pat: string)
  {
    IndexOf(s, pat).Some?
  }

  lemma ContainsIff(s: string, pat: string)
    ensures Contains(s, pat) <==> exists j :: OccursAt(s, pat, j)
  {
  }

  /** `s.replace(pat, rep)` with a literal string pattern: only the first occurrence is replaced. */
  function ReplaceFirst(s: string, pat: string, rep: string): string
  {
    match IndexOf(s, pat)
    case None => s
    case Some(i) => s[..i] + rep + s[i + |pat|..]
  }

  /** `parts.join(sep)`. */
  function Join(parts: seq<string>, sep: string): string
    decreases |parts|
  {
    if |parts| == 0 then ""
    else if |parts| == 1 then parts[0]
    else parts[0] + sep + Join(parts[1..], sep)
  }
}

=== FILE: wrappers.dfy ===
/** Option and Result values for absent fields and for operations that throw. */
module Wrappers {

  datatype Option<+T> = None | Some(value: T)

  datatype Result<+R, +E> = Success(value: R) | Failure(error: E)
}
